=== FILE: README.md ===
# ugit_diy bootstrapping core, in Dafny

This project models the bootstrapping layer of `ugit_diy`, a small Git-like
version-control tool in its first stage:

- **Project-root discovery** (`find_repo_root`). The search starts at a directory and walks up through each ancestor to the filesystem root. It returns the first directory that directly contains the file `pyproject.toml`. If none does, it fails with `RepoRootNotFoundError`, which carries the start directory.
- **Repository initialisation** (`init_repo`). It finds the root and refuses when `root/.ugit` already exists. Otherwise it creates `objects/`, `refs/heads/` and `refs/tags/`, and writes `HEAD` with the text `ref: refs/heads/main\n`.
- **Logging-config helpers**: the import-time check of the packaged config's resource path; the in-place rewrite that moves every file handler's `filename` into the repository's `logs` directory, keeping only its basename; and the mapping of the `UGIT_LOG_LEVEL` setting to a level number.

The filesystem is abstract. A path is a sequence of component strings, and
`[]` is the root. The filesystem is a set of directory paths plus a map from
file paths to their text. `Paths.HasMarker` is the model of
`(candidate / "pyproject.toml").is_file()`, and `LoggingSetup.StrOf` the model
of `str(...)` applied to a handler's `class` and `filename` values.

Files:

- `wrappers.dfy`: `Option` and `Result`. `Result` stands in for Python's raised exceptions.
- `strings.dfy`: substring test (Python's `in` on strings) and ASCII upper-casing.
- `paths.dfy` (module `Paths`, pure): the root search is a function of the set of regular-file paths. It is therefore read-only by construction.
- `repo.dfy` (module `Repo`, imperative): class `FileSystem`, with fields `dirs` and `files`, and the method `InitRepo`.
  - `Valid()` holds of every real directory tree: the root is a directory, every parent of a directory or file is a directory, and no path is both.
  - Under `Valid()` the model proves that the three `mkdir(parents=True)` calls and the `write_text` of HEAD never fail.
- `logging_setup.dfy` (module `LoggingSetup`, mixed):
  - class `DictConfig`, whose method `ApplyRepoLocalFilename` rewrites a nested config map in place with a loop. It is proved equal to the function `RewriteConfig`.
  - pure functions for the resource-path check and the level resolution.

Inputs that the source reads from the process are parameters here:

- the current working directory `cwd`, used when `start_dir` is omitted;
- the value of `UGIT_LOG_LEVEL`, as an `Option<string>` that is `None` when the variable is unset;
- the logs directory;
- the level set by the packaged config.

Where the source's documentation and its code differ, the model follows the code:

- the module docstring at `src/ugit_diy/logging_setup.py:17-18` lists DEBUG, INFO, WARNING, ERROR and CRITICAL for `UGIT_LOG_LEVEL`; the code's `getattr(logging, name)` also accepts `FATAL`, `WARN` and `NOTSET`, and so does the model;
- `src/ugit_diy/repo.py:14` imports `UGIT_DIR`, which `src/ugit_diy/constants.py` does not define. The model uses `".ugit"`, the name in the `init_repo` docstring.

## Model

| member | source | states |
|---|---|---|
| `Paths.Parent` | src/ugit_diy/paths.py:58 | the parent of a non-root path is a strict prefix of it, one component shorter, so the walk upward terminates |
| `Paths.Render` | src/ugit_diy/paths.py:31 | `str(path)` of an absolute path: the root is `/`, a top-level entry is `/name`, and `str(d / name)` is `str(d)`, then `/`, then `name` |
| `Paths.Candidates` | src/ugit_diy/paths.py:58 | `[start, *start.parents]` has exactly `|start| + 1` entries; entry `i` is the start with its last `i` components dropped, so it runs from the start to the root |
| `Paths.FirstMarked` | src/ugit_diy/paths.py:58-60 | first-match search: a returned index points at a candidate holding `pyproject.toml`, and no earlier candidate holds it; `None` means no candidate holds it |
| `Paths.RootNotFoundError.Message` | src/ugit_diy/paths.py:30-34 | the error message contains "Could not find an upward 'pyproject.toml'" and the rendered start directory |
| `Paths.FindRepoRoot` | src/ugit_diy/paths.py:42-61 | on success the root is the start directory or an ancestor of it and holds the marker, and no directory between the start and the root holds it (nearest wins); a start directory holding the marker is itself returned; on failure the error carries the start directory (the cwd when `start_dir` is omitted) and no candidate up to the root holds the marker |
| `Paths.FindRepoRootOnlyReadsMarkers` | src/ugit_diy/paths.py:58-59 | the search depends only on which ancestors of the start hold a `pyproject.toml` file: filesystems that agree there give the same result |
| `Repo.Prefixes` | src/ugit_diy/repo.py:76-78 | the directories `mkdir(parents=True)` ensures exist are exactly the path and its ancestors |
| `Repo.InitError.Message` | src/ugit_diy/repo.py:35 | a propagated root-search error keeps its own message; the already-exists message contains the repository path |
| `Repo.FileSystem.Exists` | src/ugit_diy/repo.py:73 | in a well-formed tree, every ancestor of an existing path is a directory |
| `Repo.FileSystem.MakeDirs` | src/ugit_diy/repo.py:76-78 | `mkdir(parents=True)` succeeds exactly when the path does not exist and no ancestor is a file; it then adds the path and its ancestors as directories, and otherwise changes nothing; files are untouched; the tree stays valid |
| `Repo.FileSystem.WriteText` | src/ugit_diy/repo.py:79 | `write_text` succeeds exactly when the parent is a directory and the path is not one; it then sets that file's text and changes nothing else |
| `Repo.FileSystem.InitRepo` | src/ugit_diy/repo.py:44-81 | the search runs on the given `start_dir`/cwd. A root-not-found error is passed on unchanged and nothing changes. If `root/.ugit` exists as file or directory, `AlreadyExists(root/.ugit)` is returned and nothing changes. Otherwise `root/.ugit` is returned, the directories become the old ones plus `.ugit`, `objects`, `refs`, `refs/heads` and `refs/tags`, and the files become the old ones plus `HEAD` = `ref: refs/heads/main\n` |
| `Repo.FileSystem.MakeLayoutDirs` | src/ugit_diy/repo.py:76-78 | when the three targets are missing and none of their ancestors is a file, the three `mkdir(parents=True)` calls add exactly their prefixes as directories and leave files untouched |
| `Repo.FileSystem.CreateLayout` | src/ugit_diy/repo.py:76-79 | at a path whose proper ancestors are all directories and with no existing entries at or below it, the creation steps cannot fail; they add exactly the layout and the HEAD file; every new path lies below the repository directory |
| `Repo.FileSystem.InitRepoTwice` | src/ugit_diy/repo.py:73-79 | the first call has exactly the outcome of `init_repo`; a success followed by a second call gives `AlreadyExists` for the same path, and the directories and files are exactly those the first call left, so HEAD is never overwritten; a failure repeats as the same failure with nothing changed |
| `LoggingSetup.InvalidLoggingConfigPathError.Message` | src/ugit_diy/logging_setup.py:60 | the message starts with the constant's name `LOGGING_CONFIG_RESOURCE_PATH` and says a 3-item tuple is expected |
| `LoggingSetup.ValidateResourcePath` | src/ugit_diy/logging_setup.py:67-73 | accepted exactly when the tuple has three items, all non-empty; an accepted tuple's (package, subdir, filename) are its three items in order |
| `LoggingSetup.ShippedResourcePathIsValid` | src/ugit_diy/constants.py:10 | the shipped `("ugit_diy", "config", "logging.json")` passes the check |
| `LoggingSetup.Basename` | src/ugit_diy/logging_setup.py:136 | a basename never contains `/`, and a bare name such as `app.log` is its own basename |
| `LoggingSetup.BasenameOfLastPart` | src/ugit_diy/logging_setup.py:136 | the basename of a path is its last non-empty part: any directory part before it and any trailing slashes after it are dropped |
| `LoggingSetup.BasenameAfterSlash` | src/ugit_diy/logging_setup.py:136 | a non-empty, slash-free segment after the last `/` is the basename, whatever precedes it |
| `LoggingSetup.JoinName` | src/ugit_diy/logging_setup.py:137 | `logs_dir / name` is `logs_dir` itself for the empty name, and otherwise the child `name` of `logs_dir` |
| `LoggingSetup.RepoLocalFilename` | src/ugit_diy/logging_setup.py:135-137 | the new filename is `logs_dir` rendered, then `/`, then the old basename; the old directory part is dropped and the basename is kept; an empty basename gives `logs_dir` itself |
| `LoggingSetup.LooksLikeFileHandler` | src/ugit_diy/logging_setup.py:129-132 | a handler without a `class` key is not a file handler |
| `LoggingSetup.FileHandlerClass` | src/ugit_diy/logging_setup.py:129-132 | any class name containing `FileHandler` (`logging.FileHandler`, `RotatingFileHandler`, `TimedRotatingFileHandler`) marks a file handler |
| `LoggingSetup.RewriteHandler` | src/ugit_diy/logging_setup.py:123-137 | a handler entry that is not a mapping is unchanged. A mapping keeps its key set, and every key but `filename` keeps its value. A handler whose class does not contain "FileHandler" is unchanged, so it never gains a `filename`. A file handler with a `filename` gets the repo-local filename |
| `LoggingSetup.RewriteConfig` | src/ugit_diy/logging_setup.py:117-137 | the config keeps its keys, and every top-level key but `handlers` keeps its value. A missing or non-mapping `handlers` leaves the config unchanged. Otherwise the handler names are unchanged and each handler is rewritten on its own |
| `LoggingSetup.RewriteHandlerIdempotent` | src/ugit_diy/logging_setup.py:134-137 | rewriting a handler twice equals rewriting it once, when its filename has a non-empty basename |
| `LoggingSetup.RewriteConfigIdempotent` | src/ugit_diy/logging_setup.py:117-137 | applying the rewrite twice equals applying it once, when every replaced filename has a non-empty basename |
| `LoggingSetup.DictConfig.ApplyRepoLocalFilename` | src/ugit_diy/logging_setup.py:106-137 | the loop over the handler entries leaves the config equal to `RewriteConfig` of the old config |
| `LoggingSetup.LevelNumber` | src/ugit_diy/logging_setup.py:237-238 | a name is recognised exactly when it is one of CRITICAL, FATAL, ERROR, WARNING, WARN, INFO, DEBUG and NOTSET; a recognised name is non-empty and upper-case and maps to a level number, DEBUG, INFO, WARNING, ERROR and CRITICAL map to their own levels, FATAL to CRITICAL, WARN to WARNING and NOTSET to 0 |
| `LoggingSetup.FallbackLevel` | src/ugit_diy/logging_setup.py:176-177 | always a level number; INFO when the variable is unset or its upper-cased value names no level; otherwise the named level |
| `LoggingSetup.PackagedRootLevel` | src/ugit_diy/logging_setup.py:235-239 | the configured level stands when the variable is unset or empty. The level changes only to the level named by the upper-cased value, and a recognised name always takes effect |
| `LoggingSetup.LevelNamesCaseInsensitive` | src/ugit_diy/logging_setup.py:176 | in both modes a name and its upper-cased form select the same level |
| `LoggingSetup.LevelModesAgree` | src/ugit_diy/logging_setup.py:235-239 | a recognised name selects the same level in fallback and packaged mode; when unset, fallback gives INFO and packaged mode keeps the configured level |
| `LoggingSetup.DocumentedLevelNames` | src/ugit_diy/logging_setup.py:17-18 | each documented name, upper- or lower-case, selects its own level in both fallback and packaged mode |
| `LoggingSetup.FallbackLevelExamples` | tests/test_logging_setup.py:149-175 | fallback mode gives INFO when the variable is unset and WARNING for `WARNING` |
| `LoggingSetup.PackagedOverrideExample` | tests/test_logging_setup.py:227-246 | `ERROR` overrides the INFO a packaged config sets; the lower-case `error` does the same |
| `Strings.IsInfix` | src/ugit_diy/logging_setup.py:132 | Python's `sub in s`: holds exactly when `sub` occurs at some index of `s` |
| `Strings.Upper` | src/ugit_diy/logging_setup.py:176 | `str.upper()`: the length is kept, each lower-case letter becomes its upper-case letter, and every other character is unchanged |

## Left out

- `Path.resolve()`: symlinks, relative start directories, `..` components and drive or UNC roots are not modelled. The start directory is an absolute component sequence.
- `mkdir`/`write_text` failures from the OS (permissions, full disk) are not modelled. Only the logical failures are: the path exists, a parent is missing, or a file is in the way. The model proves these cannot happen during `init_repo`.
- Concurrent initialisers: the exists-check followed by creation is not atomic in the source, and the model is sequential.
- `src/ugit_diy/cli.py` and `src/ugit_diy/__main__.py` (argument parsing, help, version, exit codes) are not part of this model.
- Left out because they are I/O or library calls: `_load_packaged_logging_json`, `logging.config.dictConfig`, `basicConfig`, `captureWarnings`, `_emit_warnings_now` and handler installation. The exception fallback in `setup_logging` goes with them. The cached `_ensure_repo_logs_dir` is not modelled; the logs directory is a parameter.
- `LoggingSetup.Basename`: `.` components and other pathlib normalisation are not modelled. For example, `Path("a/.").name` is `"a"`; the model gives `"."`.
- `LoggingSetup.RewriteHandler`: when `class` or `filename` holds a nested mapping, the model reads its `str()` text as empty; Python renders the dict, and that text could contain "FileHandler".
- `LoggingSetup.DictConfig.ApplyRepoLocalFilename`: handler entries are values. Two handler names that share one dict object (impossible in parsed JSON) and dict key order are not modelled.
- `Strings.Upper`, `LoggingSetup.FallbackLevel`, `LoggingSetup.PackagedRootLevel`, `LoggingSetup.LevelNamesCaseInsensitive`: upper-casing is ASCII only. Python's Unicode `upper()` also maps, for example, the dotless `ı` to `I`. Upper-case attributes of `logging` that are not levels are read as unknown names. `BASIC_FORMAT` is a string and `_STYLES` (from `_styles`) is a dict. In fallback mode Python passes that value to `basicConfig`, which rejects it, whereas the model yields INFO.
- `LoggingSetup.ValidateResourcePath`: the constant is a sequence of strings. Items that are not strings, and iterables that are not tuples (a three-character string would unpack), are not modelled.

=== FILE: logging_setup.dfy ===
/** The pure and in-place parts of logging setup (src/ugit_diy/logging_setup.py):
    the import-time check of the packaged config's resource path, the rewrite
    of file-handler filenames into the repository's `logs` directory, and the
    resolution of the `UGIT_LOG_LEVEL` setting to a level number. */
module LoggingSetup {
  import opened Wrappers
  import opened Strings
  import opened Paths

  // ---------------------------------------------------------------------------
  // Resource-path validation

  /** `LOGGING_CONFIG_RESOURCE_PATH` as shipped: (package, subdir, filename). */
  const LoggingConfigResourcePath: seq<string> := ["ugit_diy", "config", "logging.json"]

  datatype ResourcePath = ResourcePath(package: string, subdir: string, filename: string)

  /** `InvalidLoggingConfigPathError`. */
  datatype InvalidLoggingConfigPathError = InvalidLoggingConfigPath {
    function Message(): (m: string)
      ensures "LOGGING_CONFIG_RESOURCE_PATH" <= m
      ensures Strings.IsInfix("3-item tuple", m)
    {
      var lead := "LOGGING_CONFIG_RESOURCE_PATH" + " must be a ";
      var tail := " of strings: (package, subdir, filename)";
      InfixOfConcat(lead, "3-item tuple", tail);
      assert (lead + "3-item tuple" + tail)[..28] == "LOGGING_CONFIG_RESOURCE_PATH";
      lead + "3-item tuple" + tail
    }
  }

  /** The import-time check: unpacking into three names fails unless the tuple
      has exactly three items, and every item must be a non-empty string. */
  function ValidateResourcePath(t: seq<string>): (r: Result<ResourcePath, InvalidLoggingConfigPathError>)
    ensures r.Success? <==> |t| == 3 && forall i :: 0 <= i < |t| ==> t[i] != ""
    ensures r.Success? ==> [r.value.package, r.value.subdir, r.value.filename] == t
  {
    if |t| != 3 then Failure(InvalidLoggingConfigPath)
    else if t[0] == "" || t[1] == "" || t[2] == "" then Failure(InvalidLoggingConfigPath)
    else Success(ResourcePath(t[0], t[1], t[2]))
  }

  /** The shipped constant passes the check, so importing the module succeeds. */
  lemma ShippedResourcePathIsValid()
    ensures ValidateResourcePath(LoggingConfigResourcePath) == Success(ResourcePath("ugit_diy", "config", "logging.json"))
  {
  }

  // ---------------------------------------------------------------------------
  // Basenames

  /** The characters after the last `/` of `s` (all of `s` when it has none). */
  function LastSegment(s: string): (seg: string)
    ensures '/' !in seg
    ensures '/' !in s ==> seg == s
  {
    if s == [] || s[|s| - 1] == '/' then "" else LastSegment(s[..|s| - 1]) + [s[|s| - 1]]
  }

  /** `Path(s).name`: the last non-empty `/`-separated part of `s`, or "" when
      there is none (`""`, `"/"`). Trailing slashes are ignored. */
  function Basename(s: string): (b: string)
    ensures '/' !in b
    // a bare name is its own basename
    ensures '/' !in s ==> b == s
    // a root-only path such as "/" has no name
    ensures (forall i :: 0 <= i < |s| ==> s[i] == '/') ==> b == ""
  {
    if s != [] && s[|s| - 1] == '/' then Basename(s[..|s| - 1]) else LastSegment(s)
  }

  /** A segment after a slash is the basename, whatever precedes it. */
  lemma {:induction false} BasenameAfterSlash(x: string, b: string)
    requires b != "" && '/' !in b
    ensures Basename(x + "/" + b) == b
  {
    LastSegmentAfterSlash(x, b);
  }

  /** The basename of `x + b + t` is `b`, when `x` is empty or ends in a
      directory separator and `t` is a run of trailing slashes. */
  lemma {:induction false} BasenameOfLastPart(x: string, b: string, t: string)
    requires b != "" && '/' !in b
    requires x == "" || x[|x| - 1] == '/'
    requires forall i :: 0 <= i < |t| ==> t[i] == '/'
    ensures Basename(x + b + t) == b
    decreases |t|
  {
    var s := x + b + t;
    if t == [] {
      assert s == x + b;
      if x != "" {
        var d := x[..|x| - 1];
        assert x == d + "/";
        assert s == d + "/" + b;
        BasenameAfterSlash(d, b);
      }
    } else {
      assert s[|s| - 1] == t[|t| - 1] == '/';
      assert s[..|s| - 1] == x + b + t[..|t| - 1];
      BasenameOfLastPart(x, b, t[..|t| - 1]);
    }
  }

  lemma {:induction false} LastSegmentAfterSlash(x: string, b: string)
    requires '/' !in b
    ensures LastSegment(x + "/" + b) == b
  {
    var s := x + "/" + b;
    if b == [] {
      assert s[|s| - 1] == '/';
    } else {
      assert s[..|s| - 1] == x + "/" + b[..|b| - 1];
      assert b[|b| - 1] in b;
      LastSegmentAfterSlash(x, b[..|b| - 1]);
      assert b[..|b| - 1] + [b[|b| - 1]] == b;
    }
  }

  /** `logs_dir / name`: joining the empty name leaves the directory as is. */
  function JoinName(dir: Path, name: string): (p: Path)
    ensures name == "" ==> p == dir
    ensures name != "" ==> p != [] && Parent(p) == dir && p[|p| - 1] == name
  {
    if name == "" then dir else dir + [name]
  }

  /** `str(logs_dir / Path(filename).name)`: the filename moved into `logs_dir`,
      keeping only its basename. */
  function RepoLocalFilename(logsDir: Path, filename: string): (r: string)
    // the directory part of the old filename is discarded, its basename kept
    ensures Basename(filename) != "" ==> r == RenderParts(logsDir) + "/" + Basename(filename)
    ensures Basename(filename) != "" ==> Basename(r) == Basename(filename)
    ensures Basename(filename) == "" ==> r == Render(logsDir)
  {
    var b := Basename(filename);
    if b == "" then Render(JoinName(logsDir, b))
    else
      assert Parent(logsDir + [b]) == logsDir;
      BasenameAfterSlash(RenderParts(logsDir), b);
      Render(JoinName(logsDir, b))
  }

  // ---------------------------------------------------------------------------
  // Handler filename rewrite

  /** A value of a dictConfig mapping, as parsed from JSON. */
  datatype Value =
    | Str(s: string)
    | Mapping(entries: map<string, Value>)
    | Scalar(text: string)   // a number, boolean, null or list, by the text str() gives it

  /** `str(v)` for the values a handler's `class` or `filename` may hold. */
  function StrOf(v: Value): string {
    match v
    case Str(s) => s
    case Scalar(t) => t
    case Mapping(_) => ""
  }

  /** `"FileHandler" in str(handler_cfg.get("class", ""))`. */
  predicate LooksLikeFileHandler(cfg: map<string, Value>)
    // without a `class` the handler is no file handler
    ensures "class" !in cfg ==> !LooksLikeFileHandler(cfg)
  {
    IsInfix("FileHandler", StrOf(if "class" in cfg then cfg["class"] else Str("")))
  }

  /** Any class name containing "FileHandler" (the plain, rotating and
      timed-rotating file handlers among them) marks a file handler. */
  lemma FileHandlerClass(cfg: map<string, Value>, x: string, y: string)
    requires "class" in cfg && cfg["class"] == Str(x + "FileHandler" + y)
    ensures LooksLikeFileHandler(cfg)
  {
    InfixOfConcat(x, "FileHandler", y);
  }

  /** One handler entry after the rewrite: a mapping that looks like a file
      handler and has a `filename` gets the repo-local filename; every other
      entry, and every other key, is left as it was. */
  function RewriteHandler(h: Value, logsDir: Path): (r: Value)
    ensures !h.Mapping? ==> r == h
    ensures h.Mapping? ==> r.Mapping? && r.entries.Keys == h.entries.Keys
    ensures h.Mapping? ==> forall k :: k in h.entries && k != "filename" ==> r.entries[k] == h.entries[k]
    ensures h.Mapping? && "filename" in h.entries && LooksLikeFileHandler(h.entries) ==>
      r.entries["filename"] == Str(RepoLocalFilename(logsDir, StrOf(h.entries["filename"])))
    ensures h.Mapping? && !LooksLikeFileHandler(h.entries) ==> r == h
  {
    match h
    case Mapping(cfg) =>
      if LooksLikeFileHandler(cfg) && "filename" in cfg
      then Mapping(cfg["filename" := Str(RepoLocalFilename(logsDir, StrOf(cfg["filename"])))])
      else h
    case _ => h
  }

  /** The whole config after `_apply_repo_local_filename(config, logs_dir)`. */
  function RewriteConfig(cfg: map<string, Value>, logsDir: Path): (r: map<string, Value>)
    ensures r.Keys == cfg.Keys
    ensures forall k :: k in cfg && k != "handlers" ==> r[k] == cfg[k]
    // no "handlers" entry, or one that is not a mapping: nothing changes
    ensures "handlers" !in cfg || !cfg["handlers"].Mapping? ==> r == cfg
    // the set of handler names is kept, and each handler is rewritten on its own
    ensures "handlers" in cfg && cfg["handlers"].Mapping? ==>
      && r["handlers"].Mapping?
      && r["handlers"].entries.Keys == cfg["handlers"].entries.Keys
      && forall n :: n in cfg["handlers"].entries ==>
           r["handlers"].entries[n] == RewriteHandler(cfg["handlers"].entries[n], logsDir)
  {
    if "handlers" in cfg && cfg["handlers"].Mapping? then
      var hs := cfg["handlers"].entries;
      cfg["handlers" := Mapping(map n | n in hs :: RewriteHandler(hs[n], logsDir))]
    else cfg
  }

  /** The handler's filename, if it is one the rewrite replaces, has a
      non-empty basename. */
  predicate FilenameHasBasename(h: Value) {
    h.Mapping? && "filename" in h.entries && LooksLikeFileHandler(h.entries) ==>
      Basename(StrOf(h.entries["filename"])) != ""
  }

  predicate AllFilenamesHaveBasenames(cfg: map<string, Value>) {
    "handlers" in cfg && cfg["handlers"].Mapping? ==>
      forall n :: n in cfg["handlers"].entries ==> FilenameHasBasename(cfg["handlers"].entries[n])
  }

  /** Rewriting a handler a second time changes nothing. */
  lemma RewriteHandlerIdempotent(h: Value, logsDir: Path)
    requires FilenameHasBasename(h)
    ensures RewriteHandler(RewriteHandler(h, logsDir), logsDir) == RewriteHandler(h, logsDir)
  {
  }

  /** Applying the rewrite twice gives the same config as applying it once,
      provided every filename it replaces has a non-empty basename. */
  lemma RewriteConfigIdempotent(cfg: map<string, Value>, logsDir: Path)
    requires AllFilenamesHaveBasenames(cfg)
    ensures RewriteConfig(RewriteConfig(cfg, logsDir), logsDir) == RewriteConfig(cfg, logsDir)
  {
    var once := RewriteConfig(cfg, logsDir);
    if "handlers" in cfg && cfg["handlers"].Mapping? {
      var hs := cfg["handlers"].entries;
      var hs1 := once["handlers"].entries;
      var twice := RewriteConfig(once, logsDir);
      forall n | n in hs1 ensures twice["handlers"].entries[n] == hs1[n] {
        RewriteHandlerIdempotent(hs[n], logsDir);
      }
      assert twice["handlers"].entries == hs1;
    }
  }

  /** A config held by reference and updated in place, as dictConfig mappings are. */
  class DictConfig {
    var entries: map<string, Value>

    constructor (entries: map<string, Value>)
      ensures this.entries == entries
    {
      this.entries := entries;
    }

    /** `_apply_repo_local_filename(config, logs_dir)`: visits every handler
        entry and replaces the filename of each file handler in place. */
    method ApplyRepoLocalFilename(logsDir: Path)
      modifies this
      ensures entries == RewriteConfig(old(entries), logsDir)
    {
      if "handlers" !in entries || !entries["handlers"].Mapping? {
        return;
      }
      var handlers := entries["handlers"].entries;
      ghost var handlers0 := handlers;
      var pending := handlers.Keys;
      while pending != {}
        invariant pending <= handlers0.Keys
        invariant handlers.Keys == handlers0.Keys
        invariant forall n :: n in handlers0 ==>
          handlers[n] == if n in pending then handlers0[n] else RewriteHandler(handlers0[n], logsDir)
        decreases pending
      {
        var name :| name in pending;
        var handler := handlers[name];
        if handler.Mapping? {
          var cfg := handler.entries;
          var className := StrOf(if "class" in cfg then cfg["class"] else Str(""));
          var looksLikeFileHandler := IsInfix("FileHandler", className);
          if looksLikeFileHandler && "filename" in cfg {
            var basename := Basename(StrOf(cfg["filename"]));
            cfg := cfg["filename" := Str(Render(JoinName(logsDir, basename)))];
            handlers := handlers[name := Mapping(cfg)];
          }
        }
        pending := pending - {name};
      }
      assert handlers == map n | n in handlers0 :: RewriteHandler(handlers0[n], logsDir);
      entries := entries["handlers" := Mapping(handlers)];
    }
  }

  // ---------------------------------------------------------------------------
  // Level resolution

  const NotSet: int := 0
  const Debug: int := 10
  const Info: int := 20
  const Warning: int := 30
  const Error: int := 40
  const Critical: int := 50

  /** The level numbers of Python's logging module. */
  predicate IsLevel(n: int) {
    n == NotSet || n == Debug || n == Info || n == Warning || n == Error || n == Critical
  }

  /** The names `logging` defines as int levels, aliases included. */
  const LevelNames: set<string> := {"CRITICAL", "FATAL", "ERROR", "WARNING", "WARN", "INFO", "DEBUG", "NOTSET"}

  /** `getattr(logging, name)` where that is an int: the module's upper-case
      level names, aliases included. */
  function LevelNumber(name: string): (r: Option<int>)
    ensures r.Some? <==> name in LevelNames
    ensures r.Some? ==> IsLevel(r.value)
    ensures r.Some? ==> name != "" && Upper(name) == name
    // the five documented names map to their own levels
    ensures name == "DEBUG" ==> r == Some(Debug)
    ensures name == "INFO" ==> r == Some(Info)
    ensures name == "WARNING" ==> r == Some(Warning)
    ensures name == "ERROR" ==> r == Some(Error)
    ensures name == "CRITICAL" ==> r == Some(Critical)
    // and so do the aliases and NOTSET
    ensures name == "FATAL" ==> r == Some(Critical)
    ensures name == "WARN" ==> r == Some(Warning)
    ensures name == "NOTSET" ==> r == Some(NotSet)
  {
    if name == "CRITICAL" || name == "FATAL" then Some(Critical)
    else if name == "ERROR" then Some(Error)
    else if name == "WARNING" || name == "WARN" then Some(Warning)
    else if name == "INFO" then Some(Info)
    else if name == "DEBUG" then Some(Debug)
    else if name == "NOTSET" then Some(NotSet)
    else None
  }

  /** The level `_configure_fallback` installs, given the value of
      `UGIT_LOG_LEVEL` (`None` when unset): the upper-cased name's level,
      INFO when unset or unknown. */
  function FallbackLevel(env: Option<string>): (level: int)
    ensures IsLevel(level)
    ensures env.None? ==> level == Info
    ensures env.Some? && LevelNumber(Upper(env.value)).None? ==> level == Info
    ensures env.Some? && LevelNumber(Upper(env.value)).Some? ==> level == LevelNumber(Upper(env.value)).value
  {
    UpperOfUpperCase("INFO");
    LevelNumber(Upper(env.GetOr("INFO"))).GetOr(Info)
  }

  /** The root level after the override in `setup_logging`, given the value of
      `UGIT_LOG_LEVEL` and the level the packaged config set: changed only when
      the variable is set, non-empty and names a level. */
  function PackagedRootLevel(env: Option<string>, configured: int): (level: int)
    ensures env.None? || env == Some("") ==> level == configured
    ensures level != configured ==> env.Some? && LevelNumber(Upper(env.value)) == Some(level)
    ensures env.Some? && LevelNumber(Upper(env.value)).Some? ==> level == LevelNumber(Upper(env.value)).value
  {
    if env.Some? && env.value != "" then
      match LevelNumber(Upper(env.value))
      case Some(lvl) => lvl
      case None => configured
    else configured
  }

  /** Level names are case-insensitive in both modes. */
  lemma LevelNamesCaseInsensitive(name: string, configured: int)
    ensures FallbackLevel(Some(name)) == FallbackLevel(Some(Upper(name)))
    ensures PackagedRootLevel(Some(name), configured) == PackagedRootLevel(Some(Upper(name)), configured)
  {
  }

  /** A recognised name selects the same level in fallback and packaged mode;
      when the variable is unset the two modes differ only in their default. */
  lemma LevelModesAgree(env: Option<string>, configured: int)
    ensures env.Some? && LevelNumber(Upper(env.value)).Some? ==>
      FallbackLevel(env) == PackagedRootLevel(env, configured)
    ensures env.None? ==> FallbackLevel(env) == Info && PackagedRootLevel(env, configured) == configured
  {
  }

  /** The documented names select their levels in both modes, written in
      upper or lower case. */
  lemma DocumentedLevelNames(configured: int)
    ensures FallbackLevel(Some("DEBUG")) == FallbackLevel(Some("debug")) == Debug
    ensures FallbackLevel(Some("INFO")) == FallbackLevel(Some("info")) == Info
    ensures FallbackLevel(Some("WARNING")) == FallbackLevel(Some("warning")) == Warning
    ensures FallbackLevel(Some("ERROR")) == FallbackLevel(Some("error")) == Error
    ensures FallbackLevel(Some("CRITICAL")) == FallbackLevel(Some("critical")) == Critical
    ensures PackagedRootLevel(Some("DEBUG"), configured) == PackagedRootLevel(Some("debug"), configured) == Debug
    ensures PackagedRootLevel(Some("INFO"), configured) == PackagedRootLevel(Some("info"), configured) == Info
    ensures PackagedRootLevel(Some("WARNING"), configured) == PackagedRootLevel(Some("warning"), configured) == Warning
    ensures PackagedRootLevel(Some("ERROR"), configured) == PackagedRootLevel(Some("error"), configured) == Error
    ensures PackagedRootLevel(Some("CRITICAL"), configured) == PackagedRootLevel(Some("critical"), configured) == Critical
  {
    assert Upper("DEBUG") == Upper("debug") == "DEBUG";
    assert Upper("INFO") == Upper("info") == "INFO";
    assert Upper("WARNING") == Upper("warning") == "WARNING";
    assert Upper("ERROR") == Upper("error") == "ERROR";
    assert Upper("CRITICAL") == Upper("critical") == "CRITICAL";
  }

  /** Fallback mode in the test suite: INFO when the variable is unset,
      WARNING when it names WARNING. */
  lemma FallbackLevelExamples()
    ensures FallbackLevel(None) == Info
    ensures FallbackLevel(Some("WARNING")) == Warning
  {
  }

  /** Packaged mode in the test suite: ERROR overrides the INFO the packaged
      config sets; the lower-case spelling is an extra example. */
  lemma PackagedOverrideExample()
    ensures PackagedRootLevel(Some("ERROR"), Info) == Error
    ensures PackagedRootLevel(Some("error"), Info) == Error
  {
  }
}

=== FILE: paths.dfy ===
/** Project-root discovery: the upward search for `pyproject.toml`
    (src/ugit_diy/paths.py). The search only reads the filesystem, so it is
    modelled as a function of the set of regular-file paths. */
module Paths {
  import opened Wrappers
  import opened Strings

  /** An absolute path as its sequence of components; `[]` is the filesystem root. */
  type Path = seq<string>

  /** The file whose presence marks a directory as the project root. */
  const Marker: string := "pyproject.toml"

  /** `p.parent` for a path that is not the root. */
  function Parent(p: Path): (q: Path)
    requires p != []
    ensures q < p && |q| == |p| - 1
  {
    p[..|p| - 1]
  }

  /** `str(p)` for a POSIX path: `/` for the root, `/a/b` otherwise. */
  function Render(p: Path): (s: string)
    // an absolute path: it starts at the root and ends with its last component
    ensures s != [] && s[0] == '/'
    ensures p != [] ==> |s| > |p[|p| - 1]| && s[|s| - |p[|p| - 1]| - 1..] == "/" + p[|p| - 1]
    // `str(d / name)` is `str(d)`, a separator, then `name`
    ensures |p| == 1 ==> s == "/" + p[0]
    ensures |p| >= 2 ==> s == Render(Parent(p)) + "/" + p[|p| - 1]
  {
    assert |p| == 1 ==> RenderParts(Parent(p)) == "";
    if p == [] then "/" else RenderParts(p)
  }

  function RenderParts(p: Path): (s: string)
    ensures p != [] ==> s != [] && s[0] == '/'
  {
    if p == [] then "" else RenderParts(Parent(p)) + "/" + p[|p| - 1]
  }

  /** `(dir / "pyproject.toml").is_file()` against the set of regular files. */
  predicate HasMarker(files: set<Path>, dir: Path) {
    dir + [Marker] in files
  }

  /** The list `[start, *start.parents]`: the start, then every ancestor up to the root. */
  function Candidates(start: Path): (c: seq<Path>)
    ensures |c| == |start| + 1
    ensures forall i :: 0 <= i < |c| ==> c[i] == start[..|start| - i]
    decreases |start|
  {
    if start == [] then [start] else [start] + Candidates(Parent(start))
  }

  /** The position of the first candidate holding the marker, if any. */
  function FirstMarked(files: set<Path>, cands: seq<Path>): (r: Option<nat>)
    ensures r.Some? ==> r.value < |cands| && HasMarker(files, cands[r.value])
    ensures r.Some? ==> forall j :: 0 <= j < r.value ==> !HasMarker(files, cands[j])
    ensures r.None? ==> forall j :: 0 <= j < |cands| ==> !HasMarker(files, cands[j])
  {
    if cands == [] then None
    else if HasMarker(files, cands[0]) then Some(0)
    else match FirstMarked(files, cands[1..])
      case None => None
      case Some(i) => Some(i + 1)
  }

  const NotFoundLead: string := "Could not find an upward 'pyproject.toml'"

  /** `RepoRootNotFoundError`: carries the resolved start directory. */
  datatype RootNotFoundError = RootNotFoundError(startDir: Path) {
    /** The exception's message names the marker and the start directory. */
    function Message(): (m: string)
      ensures IsInfix(NotFoundLead, m) && IsInfix(Render(startDir), m)
    {
      var tail := ". Ensure you're running this inside a valid Python project directory.";
      var head := NotFoundLead + " starting from: ";
      InfixOfConcat([], NotFoundLead, " starting from: " + Render(startDir) + tail);
      assert [] + NotFoundLead + (" starting from: " + Render(startDir) + tail)
          == head + Render(startDir) + tail;
      InfixOfConcat(head, Render(startDir), tail);
      head + Render(startDir) + tail
    }
  }

  /** `find_repo_root(start_dir)`: the nearest of the start directory and its
      ancestors that directly contains `pyproject.toml`; the current working
      directory `cwd` stands in when `start_dir` is omitted. */
  function FindRepoRoot(files: set<Path>, startDir: Option<Path>, cwd: Path): (r: Result<Path, RootNotFoundError>)
    // found: the start directory or an ancestor of it, holding the marker
    ensures r.Success? ==> r.value <= startDir.GetOr(cwd) && HasMarker(files, r.value)
    // nearest wins: no directory between the start and the result holds the marker
    ensures r.Success? ==> forall k :: |r.value| < k <= |startDir.GetOr(cwd)| ==> !HasMarker(files, startDir.GetOr(cwd)[..k])
    // not found: no candidate up to and including the root holds it
    ensures r.Failure? ==> r.error == RootNotFoundError(startDir.GetOr(cwd))
    ensures r.Failure? ==> forall k :: 0 <= k <= |startDir.GetOr(cwd)| ==> !HasMarker(files, startDir.GetOr(cwd)[..k])
    ensures HasMarker(files, startDir.GetOr(cwd)) ==> r == Success(startDir.GetOr(cwd))
  {
    var start := startDir.GetOr(cwd);
    var cands := Candidates(start);
    match FirstMarked(files, cands)
    case Some(i) =>
      forall k | |start| - i < k <= |start| ensures !HasMarker(files, start[..k]) {
        assert cands[|start| - k] == start[..k];
      }
      Success(cands[i])
    case None =>
      forall k | 0 <= k <= |start| ensures !HasMarker(files, start[..k]) {
        assert cands[|start| - k] == start[..k];
      }
      Failure(RootNotFoundError(start))
  }

  /** The search looks only at marker files on the start directory's ancestor
      chain: two filesystems that agree there give the same answer. */
  lemma FindRepoRootOnlyReadsMarkers(files1: set<Path>, files2: set<Path>, startDir: Option<Path>, cwd: Path)
    requires forall p :: p <= startDir.GetOr(cwd) ==> (HasMarker(files1, p) <==> HasMarker(files2, p))
    ensures FindRepoRoot(files1, startDir, cwd) == FindRepoRoot(files2, startDir, cwd)
  {
    // FirstMarked's contract pins its result down to the first marked candidate
  }
}

=== FILE: repo.dfy ===
/** Repository initialisation (src/ugit_diy/repo.py) over an abstract,
    mutable filesystem: a set of directory paths and a map from file paths to
    their text. */
module Repo {
  import opened Wrappers
  import opened Paths

  /** Name of the repository directory created under the project root. */
  const RepoDirName: string := ".ugit"
  const HeadName: string := "HEAD"
  /** The text `init_repo` writes into HEAD, trailing newline included. */
  const HeadContent: string := "ref: refs/heads/main\n"

  /** Every prefix of `p`, i.e. `p` and all its ancestors. */
  function Prefixes(p: Path): (r: set<Path>)
    ensures forall q :: q in r <==> q <= p
  {
    var r := set k | 0 <= k <= |p| :: p[..k];
    assert forall q :: q <= p ==> q == p[..|q|];
    r
  }

  /** A prefix of an extension `p + t` is a prefix of `p` or `p` followed by a
      prefix of `t`. */
  lemma PrefixOfExtension(p: Path, t: Path, q: Path)
    requires q <= p + t
    ensures |q| <= |p| ==> q <= p
    ensures |q| >= |p| ==> q == p + t[..|q| - |p|]
  {
  }

  /** The directories of a freshly created repository at `repo`. */
  function LayoutDirs(repo: Path): set<Path> {
    {repo, repo + ["objects"], repo + ["refs"], repo + ["refs", "heads"], repo + ["refs", "tags"]}
  }

  /** The two ways `init_repo` can fail. */
  datatype InitError =
    | RootNotFound(cause: RootNotFoundError)   // raised by find_repo_root, passed on as is
    | AlreadyExists(repoPath: Path)            // RepoAlreadyExistsError
  {
    /** `str(exc)`: a propagated root-search error keeps its message; the
        already-exists message names the repository path. */
    function Message(): (m: string)
      ensures RootNotFound? ==> m == cause.Message()
      ensures AlreadyExists? ==> Strings.IsInfix(Render(repoPath), m)
    {
      match this
      case RootNotFound(e) => e.Message()
      case AlreadyExists(p) =>
        Strings.InfixOfConcat("Repository already exists at: ", Render(p), "");
        assert "Repository already exists at: " + Render(p) + "" == "Repository already exists at: " + Render(p);
        "Repository already exists at: " + Render(p)
    }
  }

  class FileSystem {
    var dirs: set<Path>
    var files: map<Path, string>

    /** What any real directory tree satisfies: the root is a directory, the
        parent of every directory and of every file is a directory, and no path
        is both a file and a directory. */
    ghost predicate Valid()
      reads this
    {
      && [] in dirs
      && (forall d :: d in dirs && d != [] ==> Parent(d) in dirs)
      && (forall f :: f in files ==> f != [] && Parent(f) in dirs)
      && dirs !! files.Keys
    }

    /** A filesystem holding exactly the given tree: the root is a directory,
        every directory and file sits in a directory, and no path is both. */
    constructor (dirs: set<Path>, files: map<Path, string>)
      requires [] in dirs
      requires forall d :: d in dirs && d != [] ==> Parent(d) in dirs
      requires forall f :: f in files ==> f != [] && Parent(f) in dirs
      requires dirs !! files.Keys
      ensures Valid()
      ensures this.dirs == dirs && this.files == files
    {
      this.dirs := dirs;
      this.files := files;
    }

    /** `p.exists()`: `p` is a directory or a file. */
    predicate Exists(p: Path)
      reads this
      // in a well-formed tree every ancestor of an existing path is a directory
      ensures Exists(p) && Valid() ==> forall q :: q < p ==> q in dirs
    {
      AncestorsOfPresent(p);
      p in dirs || p in files
    }

    /** `p.mkdir(parents=True)`: creates `p` and its missing ancestors; fails
        (FileExistsError / NotADirectoryError) when `p` already exists or an
        ancestor is a file, and then changes nothing. */
    method MakeDirs(p: Path) returns (ok: bool)
      requires Valid()
      modifies this
      ensures Valid()
      ensures ok <==> !old(Exists(p)) && forall q :: q < p ==> q !in old(files)
      ensures dirs == if ok then old(dirs) + Prefixes(p) else old(dirs)
      ensures files == old(files)
    {
      ok := !Exists(p) && forall k | 0 <= k < |p| :: p[..k] !in files;
      assert forall q :: q < p ==> q == p[..|q|];
      if ok {
        dirs := dirs + Prefixes(p);
        forall d | d in dirs && d != [] ensures Parent(d) in dirs {
          if d in Prefixes(p) {
            var k :| 0 <= k <= |p| && d == p[..k];
            assert Parent(d) == p[..k - 1];
          }
        }
        assert p[..0] == [];
        forall d | d in Prefixes(p) ensures d !in files {
          var k :| 0 <= k <= |p| && d == p[..k];
          if k == |p| { assert d == p; }
        }
      }
    }

    /** `p.write_text(content)`: creates or overwrites the file `p`; fails
        (FileNotFoundError / IsADirectoryError) when its parent is not a
        directory or `p` is a directory, and then changes nothing. */
    method WriteText(p: Path, content: string) returns (ok: bool)
      requires Valid()
      modifies this
      ensures Valid()
      ensures ok <==> p != [] && Parent(p) in old(dirs) && p !in old(dirs)
      ensures dirs == old(dirs)
      ensures files == if ok then old(files)[p := content] else old(files)
    {
      ok := p != [] && Parent(p) in dirs && p !in dirs;
      if ok {
        files := files[p := content];
      }
    }

    /** In a valid tree every ancestor of a directory is a directory. */
    lemma {:induction false} AncestorsAreDirs(d: Path, k: nat)
      requires Valid() && d in dirs && k <= |d|
      ensures d[..k] in dirs
      decreases |d| - k
    {
      if k < |d| {
        AncestorsAreDirs(d, k + 1);
        assert Parent(d[..k + 1]) == d[..k];
      } else {
        assert d[..k] == d;
      }
    }

    /** In a valid tree every proper ancestor of an existing path is a directory. */
    lemma AncestorsOfPresent(q: Path)
      ensures Valid() && (q in dirs || q in files) ==> forall p :: p < q ==> p in dirs
    {
      if Valid() && (q in dirs || q in files) {
        forall p | p < q
          ensures p in dirs
        {
          if q in dirs {
            AncestorsAreDirs(q, |p|);
            assert q[..|p|] == p;
          } else {
            AncestorsAreDirs(Parent(q), |p|);
            assert Parent(q)[..|p|] == p;
          }
        }
      }
    }

    /** `init_repo(start_dir)`: find the project root, refuse if `root/.ugit`
        exists, otherwise create the repository layout there. */
    method InitRepo(startDir: Option<Path>, cwd: Path) returns (r: Result<Path, InitError>)
      requires Valid()
      modifies this
      ensures Valid()
      ensures match FindRepoRoot(old(files).Keys, startDir, cwd)
        case Failure(e) =>
          r == Failure(RootNotFound(e)) && dirs == old(dirs) && files == old(files)
        case Success(root) =>
          if root + [RepoDirName] in old(dirs) || root + [RepoDirName] in old(files) then
            r == Failure(AlreadyExists(root + [RepoDirName])) && dirs == old(dirs) && files == old(files)
          else
            && r == Success(root + [RepoDirName])
            && dirs == old(dirs) + LayoutDirs(root + [RepoDirName])
            && files == old(files)[root + [RepoDirName, HeadName] := HeadContent]
    {
      var found := FindRepoRoot(files.Keys, startDir, cwd);
      if found.Failure? {
        return Failure(RootNotFound(found.error));
      }
      var root := found.value;
      var repo := root + [RepoDirName];
      if Exists(repo) {
        return Failure(AlreadyExists(repo));
      }
      // the root holds pyproject.toml, so it and all its ancestors are directories
      assert Parent(root + [Marker]) == root;
      forall q | q <= root ensures q in dirs {
        AncestorsAreDirs(root, |q|);
        assert root[..|q|] == q;
      }
      forall q | q < repo ensures q in dirs {
        PrefixOfExtension(root, [RepoDirName], q);
      }
      forall q | repo <= q ensures !Exists(q) {
        if repo < q { assert Exists(q) ==> repo in dirs; } else { assert q == repo; }
      }
      CreateLayout(repo);
      assert repo + [HeadName] == root + [RepoDirName, HeadName];
      r := Success(repo);
    }

    /** `init_repo` called twice with the same arguments: a success is followed
        by `RepoAlreadyExistsError` for the same path and leaves the first HEAD
        in place; a failure is simply repeated. */
    method InitRepoTwice(startDir: Option<Path>, cwd: Path) returns (first: Result<Path, InitError>, second: Result<Path, InitError>)
      requires Valid()
      modifies this
      ensures Valid()
      // the first call is an ordinary `init_repo`
      ensures match FindRepoRoot(old(files).Keys, startDir, cwd)
        case Failure(e) => first == Failure(RootNotFound(e))
        case Success(root) =>
          first == if root + [RepoDirName] in old(dirs) || root + [RepoDirName] in old(files)
            then Failure(AlreadyExists(root + [RepoDirName]))
            else Success(root + [RepoDirName])
      ensures first.Success? ==> second == Failure(AlreadyExists(first.value))
      // the second call changes nothing the first one left
      ensures first.Success? ==>
        dirs == old(dirs) + LayoutDirs(first.value) && files == old(files)[first.value + [HeadName] := HeadContent]
      ensures first.Failure? ==> second == first && dirs == old(dirs) && files == old(files)
    {
      ghost var files0 := files.Keys;
      first := InitRepo(startDir, cwd);
      ghost var files1 := files;
      if first.Success? {
        var repo := first.value;
        ghost var root := FindRepoRoot(files0, startDir, cwd).value;
        assert repo == root + [RepoDirName];
        assert repo + [HeadName] == root + [RepoDirName, HeadName];
        // HEAD is no marker file, so the second search finds the same root
        forall p ensures HasMarker(files0, p) <==> HasMarker(files.Keys, p) {
          assert p + [Marker] != repo + [HeadName] by {
            if |p| == |repo| {
              assert (p + [Marker])[|p|] == Marker && (repo + [HeadName])[|repo|] == HeadName;
            }
          }
        }
        FindRepoRootOnlyReadsMarkers(files0, files.Keys, startDir, cwd);
        assert repo in dirs;
      }
      second := InitRepo(startDir, cwd);
      assert first.Success? ==> files == files1;
    }

    /** The creation steps of `init_repo` at a repository path whose proper
        ancestors are all directories and below which nothing exists yet: the
        three `mkdir(parents=True)` calls and the `write_text` of HEAD all
        succeed, and exactly the layout is added. */
    method CreateLayout(repo: Path)
      requires Valid()
      requires forall q :: q < repo ==> q in dirs
      requires forall q :: repo <= q ==> !Exists(q)
      modifies this
      ensures Valid()
      ensures dirs == old(dirs) + LayoutDirs(repo)
      ensures files == old(files)[repo + [HeadName] := HeadContent]
      // only paths below the new repository were added
      ensures forall p :: Exists(p) && !old(Exists(p)) ==> repo <= p
    {
      ghost var dirs0 := dirs;
      LayoutTargetsFree(repo);
      MakeLayoutDirs(repo);
      LayoutCover(dirs0, repo);
      LayoutBelow(repo);
      assert Parent(repo + [HeadName]) == repo;
      var ok := WriteText(repo + [HeadName], HeadContent);
      assert ok;
    }

    /** The three `mkdir(parents=True)` calls of `init_repo`, each of which
        succeeds given that its target is missing and no ancestor is a file. */
    method MakeLayoutDirs(repo: Path)
      requires Valid()
      requires !Exists(repo + ["objects"]) && !Exists(repo + ["refs", "heads"]) && !Exists(repo + ["refs", "tags"])
      requires forall q :: q < repo + ["objects"] ==> q !in files
      requires forall q :: q < repo + ["refs", "heads"] ==> q !in files
      requires forall q :: q < repo + ["refs", "tags"] ==> q !in files
      modifies this
      ensures Valid()
      ensures dirs == old(dirs) + Prefixes(repo + ["objects"]) + Prefixes(repo + ["refs", "heads"])
                      + Prefixes(repo + ["refs", "tags"])
      ensures files == old(files)
    {
      Diverge(repo, ["refs", "heads"], ["objects"]);
      Diverge(repo, ["refs", "tags"], ["objects"]);
      Diverge(repo + ["refs"], ["tags"], ["heads"]);
      assert repo + ["refs"] + ["tags"] == repo + ["refs", "tags"];
      assert repo + ["refs"] + ["heads"] == repo + ["refs", "heads"];
      var ok := MakeDirs(repo + ["objects"]);
      assert ok;
      ok := MakeDirs(repo + ["refs", "heads"]);
      assert ok;
      ok := MakeDirs(repo + ["refs", "tags"]);
      assert ok;
    }

    /** Before any creation, the layout's paths are missing and none of their
        proper ancestors is a file. */
    lemma LayoutTargetsFree(repo: Path)
      requires Valid()
      requires forall q :: q < repo ==> q in dirs
      requires forall q :: repo <= q ==> !Exists(q)
      ensures !Exists(repo + ["objects"]) && !Exists(repo + ["refs", "heads"]) && !Exists(repo + ["refs", "tags"])
      ensures !Exists(repo + [HeadName])
      ensures forall q :: q < repo + ["objects"] ==> q !in files
      ensures forall q :: q < repo + ["refs", "heads"] ==> q !in files
      ensures forall q :: q < repo + ["refs", "tags"] ==> q !in files
    {
      NoFileAbove(repo, ["objects"]);
      NoFileAbove(repo, ["refs", "heads"]);
      NoFileAbove(repo, ["refs", "tags"]);
      assert repo <= repo + ["objects"] && repo <= repo + ["refs", "heads"] && repo <= repo + ["refs", "tags"];
      assert repo <= repo + [HeadName];
    }

    /** Before any creation, no proper ancestor of a path below `repo` is a file. */
    lemma NoFileAbove(repo: Path, t: Path)
      requires Valid()
      requires forall q :: q < repo ==> q in dirs
      requires forall q :: repo <= q ==> !Exists(q)
      ensures forall q :: q < repo + t ==> q !in files
    {
      forall q | q < repo + t ensures q !in files {
        PrefixOfExtension(repo, t, q);
        if |q| < |repo| {
          assert q < repo;
          assert q in dirs;
        } else {
          assert q[..|repo|] == repo;
          assert !Exists(q);
        }
      }
    }

    /** Paths that part ways right after `p` are not prefixes of one another. */
    static lemma Diverge(p: Path, s: Path, t: Path)
      requires s != [] && t != [] && s[0] != t[0]
      ensures !(p + s <= p + t) && !(p + t <= p + s)
    {
      assert (p + s)[|p|] == s[0] && (p + t)[|p|] == t[0];
    }

    /** Every layout directory lies below the repository directory, and HEAD
        is not one of them. */
    static lemma LayoutBelow(repo: Path)
      ensures forall d :: d in LayoutDirs(repo) ==> repo <= d
      ensures repo + [HeadName] !in LayoutDirs(repo) && repo <= repo + [HeadName]
    {
      Diverge(repo, [HeadName], ["objects"]);
      Diverge(repo, [HeadName], ["refs"]);
      Diverge(repo, [HeadName], ["refs", "heads"]);
      Diverge(repo, [HeadName], ["refs", "tags"]);
    }

    /** The directories the three `mkdir(parents=True)` calls add, on top of
        existing ancestors, are exactly the layout. */
    static lemma LayoutCover(dirs0: set<Path>, repo: Path)
      requires forall q :: q < repo ==> q in dirs0
      ensures dirs0 + Prefixes(repo + ["objects"]) + Prefixes(repo + ["refs", "heads"])
                + Prefixes(repo + ["refs", "tags"]) == dirs0 + LayoutDirs(repo)
    {
      PrefixesInLayout(dirs0, repo, ["objects"]);
      PrefixesInLayout(dirs0, repo, ["refs", "heads"]);
      PrefixesInLayout(dirs0, repo, ["refs", "tags"]);
      assert repo + ["refs"] <= repo + ["refs", "heads"];
      assert repo <= repo + ["objects"];
    }

    static lemma PrefixesInLayout(dirs0: set<Path>, repo: Path, t: Path)
      requires forall q :: q < repo ==> q in dirs0
      requires t == ["objects"] || t == ["refs", "heads"] || t == ["refs", "tags"]
      ensures Prefixes(repo + t) <= dirs0 + LayoutDirs(repo)
    {
      forall q | q in Prefixes(repo + t) ensures q in dirs0 + LayoutDirs(repo) {
        PrefixOfExtension(repo, t, q);
        if |q| < |repo| {
          assert q < repo;
        } else {
          assert q == repo + t[..|q| - |repo|];
          assert t[..0] == [] && t[..1] == [t[0]] && t[..|t|] == t;
          assert repo + [] == repo;
        }
      }
    }
  }
}

=== FILE: strings.dfy ===
/** The few string operations of Python that the model needs. */
module Strings {

  /** Python's `sub in s` on strings: `sub` occurs contiguously somewhere in `s`. */
  predicate IsInfix(sub: string, s: string)
    // `sub` starts at some position of `s`
    ensures IsInfix(sub, s) <==> exists i :: OccursAt(sub, s, i)
    decreases |s|
  {
    OccursShift(sub, s);
    sub <= s || (s != [] && IsInfix(sub, s[1..]))
  }

  /** `sub` occurs in `s` starting at index `i`. */
  predicate OccursAt(sub: string, s: string, i: int) {
    0 <= i <= |s| - |sub| && s[i..i + |sub|] == sub
  }

  /** An occurrence in `s` is one at the front or one in `s[1..]`. */
  lemma OccursShift(sub: string, s: string)
    ensures (exists i :: OccursAt(sub, s, i)) <==>
      (sub <= s || (s != [] && exists j :: OccursAt(sub, s[1..], j)))
  {
    if i :| OccursAt(sub, s, i) {
      if i > 0 {
        assert s[1..][i - 1..i - 1 + |sub|] == s[i..i + |sub|];
        assert OccursAt(sub, s[1..], i - 1);
      } else {
        assert sub <= s;
      }
    }
    if s != [] && exists j :: OccursAt(sub, s[1..], j) {
      var j :| OccursAt(sub, s[1..], j);
      assert s[j + 1..j + 1 + |sub|] == s[1..][j..j + |sub|];
      assert OccursAt(sub, s, j + 1);
    }
    if sub <= s {
      assert s[0..|sub|] == sub;
      assert OccursAt(sub, s, 0);
    }
  }

  /** A string always occurs inside any concatenation that has it as a middle part. */
  lemma {:induction false} InfixOfConcat(x: string, sub: string, y: string)
    ensures IsInfix(sub, x + sub + y)
  {
    if x == [] {
      assert x + sub + y == sub + y;
    } else {
      assert (x + sub + y)[1..] == x[1..] + sub + y;
      InfixOfConcat(x[1..], sub, y);
    }
  }

  /** Upper-cases one ASCII letter; every other character is kept. */
  function UpperChar(c: char): char {
    if 'a' <= c <= 'z' then (c as int - 32) as char else c
  }

  /** Python's `str.upper()`, restricted to ASCII letters. */
  function Upper(s: string): (u: string)
    ensures |u| == |s|
    // no lower-case letter is left, and every other character is kept
    ensures forall i :: 0 <= i < |u| ==> !('a' <= u[i] <= 'z')
    ensures forall i :: 0 <= i < |s| && !('a' <= s[i] <= 'z') ==> u[i] == s[i]
    // a lower-case letter becomes the upper-case letter at the same place in the alphabet
    ensures forall i :: 0 <= i < |s| && 'a' <= s[i] <= 'z' ==> u[i] as int - 'A' as int == s[i] as int - 'a' as int
  {
    seq(|s|, i requires 0 <= i < |s| => UpperChar(s[i]))
  }

  /** A string without lower-case ASCII letters is its own upper-case form. */
  lemma UpperOfUpperCase(s: string)
    requires forall i :: 0 <= i < |s| ==> !('a' <= s[i] <= 'z')
    ensures Upper(s) == s
  {
  }
}

=== FILE: wrappers.dfy ===
/** Optional values and success-or-error results, used in place of Python's
    `None` defaults and raised exceptions. */
module Wrappers {

  datatype Option<+T> = None | Some(value: T) {
    /** The wrapped value, or `default` when there is none (Python's `x or default`). */
    function GetOr(default: T): T {
      match this
      case Some(v) => v
      case None => default
    }
  }

  /** A call that either returns `value` or raises `error`. */
  datatype Result<+R, +E> = Success(value: R) | Failure(error: E)
}
